=== FILE: README.md ===
# Notes-app backend: accounts, tokens and owner-scoped notes in Dafny

This project models the backend of a small multi-user note-taking service. Users
sign up with a name, an email and a password and receive a six-digit one-time
code by mail. Verifying the code marks the account verified. Logging in returns
a signed session token (a JWT), and every notes route (list, create, partial
update, delete) sits behind a gateway that turns the `Authorization` header into
an identity and scopes every query to notes owned by that identity.

The model is a sequential state machine over one immutable store value
(`DataStore.Store`): users in a map keyed by their lower-cased email (the unique
index), notes in a sequence in natural (insertion) order, and a counter standing
for ObjectId generation. Each route handler in `Server` is a pure function from
the store, the request data and the clock `now` (milliseconds) to a
`Step(response, store')`. `Server.Handle` dispatches one request, with the
gateway (`AuthGateway.Authenticate`) in front of the notes routes.

The system's collaborators are abstracted:

- bcrypt's `compare`, `jwt.sign` and `jwt.verify` are the function fields of `Server.Env`.
- A `Server.SignupDraw` brings in three things:
  - `bcrypt.hash(·, 10)` with the salt that call draws, as a function applied to the submitted password;
  - the random OTP;
  - whether the mail went out.
- bcrypt's promise that `compare(p, hash(p))` holds is the predicate `Server.HashMatches`.
- The clock is a parameter. The JWT secret is folded into the signer and the verifier.

Files:

- `js_semantics.dfy` holds the JavaScript behaviour the handlers rely on:
  - truthiness of body fields;
  - `String.prototype.trim`, with the whitespace set of ECMA-262;
  - the `lowercase` setter;
  - `split(' ')` and `join(' ')`;
  - decimal rendering of the OTP.
- `user_model.dfy` and `note_model.dfy` hold the two schemas as well-formedness predicates.
- `data_store.dfy` holds the store and its invariant, the ownership-scoped lookup, the owner filter and the newest-first sort.
- `auth_gateway.dfy` holds the `authenticateToken` middleware.
- `server.dfy` holds the route handlers and the dispatcher.
- `account_properties.dfy`, `notes_properties.dfy`, `store_invariant.dfy` and `scenario.dfy` hold the properties.

The model follows the code as written, including these details:

- An OTP is still accepted at its expiry instant: the test is `otpExpires < now`.
- No plaintext password length is checked on the server. The minimum of 6 applies to the stored hash.
- The server does not trim emails. It only lower-cases them, through the schema setter, which Mongoose also applies to query filters.
- `name` has no length bounds: the schema's later `name` entry overrides the earlier one.
- The submitted OTP is compared as sent, without trimming.
- Login does not look at `isVerified`.
- A failed OTP mail answers 500 after the pending record has already been written.

## Model

| member | source | states |
|---|---|---|
| `JsSemantics.Truthy` | backend/server.js:38 | the `!x` tests: a body field counts as given exactly when it is present and at least one character long, so `undefined`, `null` and `""` are all missing |
| `JsSemantics.Trim` | backend/src/models/notes.js:5-16 | the trimmed value is the slice after the leading whitespace, has no whitespace at either end, only whitespace follows it, and trimming a trimmed value changes nothing |
| `JsSemantics.Lower` | backend/src/models/user.js:26 | the lowercase setter keeps the length, turns every capital into its own small letter, changes no other character and is the identity on lower-case strings |
| `JsSemantics.LowerEqualIffSameLetters` | backend/src/models/user.js:26 | two strings lower-case to the same string exactly when they differ only in the case of ASCII letters |
| `JsSemantics.Split` | backend/src/middleware/auth.js:8 | `split(' ')` yields at least one part, no part contains a space, and joining the parts with spaces gives the header back |
| `JsSemantics.SplitJoin` | backend/src/middleware/auth.js:8 | the other round trip: splitting the space-join of space-free parts gives those parts back |
| `JsSemantics.ParseDecimalInverse` | backend/server.js:48 | the OTP's `toString()` rendering reads back as the drawn number |
| `JsSemantics.DecimalInjective` | backend/server.js:111 | two different codes never render to the same string, so a different code never matches the stored one |
| `JsSemantics.SixDigits` | backend/server.js:48 | every code in 100000..999999 is stored as exactly six decimal digits |
| `UserModel.ApplySignup` | backend/server.js:52-56 | the upsert's update document on an existing record keeps its id and email, sets name, hash, code and expiry, resets `isVerified` to false, and yields a well-formed user exactly when name, email and hash meet the schema |
| `UserModel.NewPendingUser` | backend/server.js:52-56 | the document the upsert inserts takes the filter's email and a fresh id, holds the code and expiry, starts unverified, and is well-formed exactly when name, lower-cased email and hash meet the schema |
| `UserModel.MarkVerified` | backend/server.js:115-117 | verification sets `isVerified`, clears `otp` and `otpExpires`, and keeps id, name, email and password hash |
| `NoteModel.CastText` | backend/src/models/notes.js:5-16 | a raw title or description is trimmed, then accepted exactly when the trimmed value is non-empty and within its maximum length |
| `DataStore.FindOwned` | backend/server.js:80-84 | the `{ _id, user }` lookup finds the first note matching both id and owner, and finds nothing exactly when no note matches both |
| `DataStore.OwnedBy` | backend/server.js:208 | `find({ user })` keeps every note of the owner with its multiplicity and no note of anyone else |
| `DataStore.SortNewestFirst` | backend/server.js:208 | `sort({ createdAt: -1 })` returns a permutation of its input with `createdAt` non-increasing |
| `DataStore.RemoveAt` | backend/server.js:161 | deleting one note keeps every other note, in order |
| `AuthGateway.BearerToken` | backend/src/middleware/auth.js:7-10 | a token taken from the header is never empty and never contains a space, and without a header there is none |
| `AuthGateway.Authenticate` | backend/src/middleware/auth.js:6-21 | exactly one outcome per request: 401 when no token, 403 when the verifier rejects it, otherwise proceed with the verifier's claims |
| `AuthGateway.BearerTokenOfHeader` | backend/src/middleware/auth.js:8-10 | the token is the second space-separated word whatever the scheme word, and an empty second word (as in "Bearer  x") is no token |
| `AuthGateway.NoSpaceNoToken` | backend/src/middleware/auth.js:8-10 | a header without a space, including the empty header, is answered 401 whatever the verifier would say |
| `AuthGateway.VerifiedTokenProceeds` | backend/src/middleware/auth.js:13-19 | a verified token lets the request proceed carrying exactly the decoded claims |
| `AuthGateway.RejectedTokenForbidden` | backend/src/middleware/auth.js:13-17 | a token the verifier rejects is answered 403, never 401 or proceed |
| `Server.Signup` | backend/server.js:34-65 | answers 200, 400 or 500; a 400 changes nothing; otherwise a pending record exists under the lower-cased email; notes are never touched and the ObjectId counter never goes back |
| `Server.VerifyOtp` | backend/server.js:98-125 | any non-200 answer changes nothing; a 200 means the stored code equalled the submitted one, had not expired, and only that user was marked verified |
| `Server.SessionClaims` | backend/server.js:144-146 | the token signs the user's id and email, with an expiry one day (86400 s) after issue |
| `Server.Login` | backend/server.js:128-155 | login never changes the store and answers 200 only for a known email whose stored hash matches the password |
| `Server.CreateNote` | backend/server.js:180-202 | answers 201 or 400; a 400 changes nothing; a 201 appends one schema-valid note owned by the token identity and leaves the users alone |
| `Server.ListNotes` | backend/server.js:204-215 | listing always answers 200 with a note list and changes nothing |
| `Server.UpdatedText` | backend/server.js:76-83 | a falsy field is left out of `$set`; a truthy one is set to its trimmed value, and validation fails exactly when that value is empty or too long |
| `Server.UpdateNote` | backend/server.js:66-95 | every non-200 answer (400, 404, 500) changes nothing; users and the number of notes never change |
| `Server.DeleteNote` | backend/server.js:156-172 | every non-200 answer changes nothing; a 200 removes exactly one note; users never change |
| `Server.Handle` | backend/src/middleware/auth.js:10-20 | a notes request rejected by the gateway (401/403) changes nothing, and no notes route changes the users |
| `AccountProperties.SignupRejection` | backend/server.js:38-45 | signup answers 400 exactly when a field is missing or a verified account holds the email, and then changes nothing |
| `AccountProperties.SignupUpserts` | backend/server.js:47-60 | an accepted signup leaves one pending record under the email, with the new name, the hash, a six-digit code and an expiry 600000 ms ahead; the stored password is the bcrypt hash of the submitted one; it keeps a pending record's id; no other user changes; 200 if mailed, else 500 with the write done |
| `AccountProperties.SignupRetryOverwrites` | backend/server.js:52-56 | a second signup before verification keeps the record's id and leaves only the newest code |
| `AccountProperties.VerifyOtpRejection` | backend/server.js:101-113 | verification answers 400 exactly when a field is missing, the user is unknown, the code differs or the expiry is strictly past, and then changes nothing |
| `AccountProperties.OtpExpiryBoundary` | backend/server.js:111 | a matching code is accepted at the expiry instant and refused one millisecond later |
| `AccountProperties.VerifyOtpSingleUse` | backend/server.js:111-118 | after a successful verification the same request fails at any later time and changes nothing |
| `AccountProperties.SignupThenVerify` | backend/server.js:47-118 | the issued code verifies the account up to ten minutes after signup; after that, or with any other code, verification fails |
| `AccountProperties.VerifyOtpSaveSucceeds` | backend/server.js:115-118 | in a store that keeps the invariant, the document validation run by `save` never fails |
| `AccountProperties.LoginNoEnumeration` | backend/server.js:137-142 | an unknown email and a wrong password produce the identical 400 response |
| `AccountProperties.LoginIgnoresVerification` | backend/server.js:137-150 | a matching password logs in whether or not the account is verified; the body carries the signed `{ id, email }` token and id, name and email |
| `AccountProperties.EmailCaseInsensitive` | backend/server.js:42-53 | because the lowercase setter also applies to query filters, two emails differing only in ASCII case give the same signup, verification and login response and store |
| `AccountProperties.SignupThenLogin` | backend/server.js:47-150 | with bcrypt keeping its promise, the password given at an accepted signup logs in straight away, before any verification, to the record the signup wrote |
| `AccountProperties.SignupVerifyThenLogin` | backend/server.js:47-150 | after signup and verification with the mailed code, the signup password logs in to the now verified record with the id the signup assigned |
| `AccountProperties.LoginTokenAuthenticates` | backend/server.js:144-146 | when signer and verifier agree, the login token sent as `Bearer <token>` within the day passes the gateway as that user |
| `NotesProperties.CreateRejection` | backend/server.js:184-200 | create answers 400 exactly when a field is missing or a trimmed value is empty or too long, and then changes nothing |
| `NotesProperties.CreateStoresOwnedNote` | backend/server.js:188-197 | an accepted note is owned by the token identity, holds the trimmed values, has a fresh id and `createdAt == updatedAt == now`, and is appended to the collection |
| `NotesProperties.ListExactlyOwned` | backend/server.js:206-208 | the list holds exactly the requester's notes, each as often as stored, newest first |
| `NotesProperties.CreateThenList` | backend/server.js:190-208 | a note just created appears in its owner's list with the trimmed title and description |
| `NotesProperties.UpdateChangesOnlySuppliedFields` | backend/server.js:76-90 | a successful update sets only the truthy fields (trimmed) and `updatedAt` on the matching note; id, owner, `createdAt` and every other note are unchanged |
| `NotesProperties.UpdateTitleKeepsDescription` | backend/server.js:77-78 | updating only the title leaves the description as it was |
| `NotesProperties.UpdateNeedsAField` | backend/server.js:72-74 | an update answers 400 exactly when neither field is truthy |
| `NotesProperties.UpdateIndistinguishable` | backend/server.js:80-88 | without a matching note, any two stores give the same update response and nothing changes |
| `NotesProperties.ForeignNoteNotFound` | backend/server.js:81 | with distinct ids, another user's note is never found for the requester |
| `NotesProperties.UpdateRejection` | backend/server.js:71-94 | with a truthy field: 500 exactly when the id cannot be cast or a supplied value is invalid after trimming, whether or not the note exists; otherwise 404 exactly when no note matches `{ _id, user }`, and 200 when one does; no failure changes the store |
| `NotesProperties.UpdateForeignNote` | backend/server.js:80-88 | updating another user's note with any fields that pass validation is a 404 that changes nothing |
| `NotesProperties.DeleteOutcome` | backend/server.js:156-172 | delete answers 500 exactly for an uncastable id, 404 exactly when no note matches `{ _id, user }`, and 200 exactly when one does, removing that note |
| `NotesProperties.DeleteRemovesExactlyOne` | backend/server.js:161-167 | a successful delete removes exactly the matching note, keeps the rest in order, and leaves no note with that id |
| `NotesProperties.DeleteIndistinguishable` | backend/server.js:161-165 | without a matching note, any two stores give the same 404 and nothing is removed |
| `NotesProperties.GatewayDecides` | backend/src/middleware/auth.js:6-21 | a notes request without a bearer token answers 401, one whose token the verifier rejects answers 403, and one with a verified token runs the route as exactly the verifier's claims |
| `NotesProperties.HandleOtherOwnersUntouched` | backend/src/middleware/auth.js:18-19 | after any notes request, every note not owned by the identity taken from the token is still stored |
| `NotesProperties.OtherOwnersUntouched` | backend/server.js:80-84 | no notes route run as one user alters or removes a note of another user |
| `StoreInvariant.SignupPreserves` | backend/server.js:47-56 | signup keeps the store invariant when the hash of the submitted password is at least six characters long |
| `StoreInvariant.VerifyOtpPreserves` | backend/server.js:115-118 | verification keeps the store invariant |
| `StoreInvariant.CreatePreserves` | backend/server.js:190-196 | create keeps the store invariant |
| `StoreInvariant.UpdatePreserves` | backend/server.js:80-84 | update keeps the store invariant |
| `StoreInvariant.DeletePreserves` | backend/server.js:161 | delete keeps the store invariant, including distinct note ids |
| `StoreInvariant.NotesPreserves` | backend/server.js:66-215 | every notes route keeps the store invariant |
| `StoreInvariant.HandlePreserves` | backend/server.js:34-215 | every request keeps the store invariant |
| `StoreInvariant.Run` | backend/server.js:34-215 | handling a trace of requests in order never moves the ObjectId counter back, so no id is handed out twice |
| `StoreInvariant.RunPreserves` | backend/server.js:34-215 | any sequence of requests keeps the store invariant |
| `StoreInvariant.ReachableStoresValid` | backend/src/models/user.js:25-32 | every reachable store has one record per email, lower-cased emails, stored hashes of at least six characters, and `isVerified` exactly when no code is held; its notes are trimmed, non-empty and within 200 / 1000 characters |
| `Scenario.AliceWalkthrough` | backend/server.js:34-215 | from the empty store: signup, verify, login and create all succeed, the note is owned by the logged-in id, and the list returns exactly that note |

## Left out

- Email delivery is SMTP I/O. Only its success or failure is modelled, as `SignupDraw.mailDelivered`.
- bcrypt, jsonwebtoken and `Math.random` are cryptographic or random. They are parameters. The drawn code's range and bcrypt's `compare(p, hash(p))` are preconditions where a property needs them. Salting is not modelled beyond each signup drawing its own hash function.
- The server secret is folded into the signer and the verifier.
- Persistence failures are left out. A failed connection, query or write would be caught by the route's `catch`. Most routes answer that with 500, but `POST /notes` answers every caught error with 400 and the error's message.
- The modelled catch answers are:
  - 500 for a failed mail;
  - 500 for a failed `save` validation;
  - 500 for an uncastable `:id`;
  - 500 for an update that fails validation;
  - 400 for a create that fails validation.
- Express, CORS and static-file wiring, the Mongo connection, logging, the `/test` route and `listen` are infrastructure.
- The route files under backend/src/routes route to controllers and middleware that are not part of this model.
- backend/src/utils/generateToken.ts (the 30-day signer) is not used by the modelled routes.
- The frontend is client-side only, and none of its checks are attributed to the server.
- Concurrency is left out: requests form one sequential trace. Racing upserts and update-versus-delete races are not modelled.
- User records' `createdAt`/`updatedAt` timestamps are not read by any handler.
- JSON body values that are not strings are not modelled. A numeric `otp`, for example, would never equal the stored string.
- A JWT whose `id` claim cannot be cast to an ObjectId is not modelled: identities are assumed castable.
- Among notes with equal `createdAt`, MongoDB does not fix an order. The model keeps natural order for ties.
- The validation error text of a rejected create is abstracted to a fixed message.
- JsSemantics.Lower: only ASCII letters are lower-cased. JavaScript's `toLowerCase` also maps non-ASCII letters.
- NoteModel.CastText: lengths are counted in Unicode scalar values. Mongoose `maxlength` counts UTF-16 code units, so text outside the Basic Multilingual Plane is bounded more loosely.

=== FILE: account_properties.dfy ===
/** Properties of the account lifecycle: signup, OTP verification and login. */
module AccountProperties {
  import opened JsSemantics
  import opened UserModel
  import opened AuthGateway
  import opened DataStore
  import opened Server

  /** No verified account holds `email` (after lower-casing). */
  predicate EmailFree(st: Store, email: string) {
    Lower(email) !in st.users || !st.users[Lower(email)].isVerified
  }

  // ---------------------------------------------------------------------------
  // Signup

  /** Signup answers 400 exactly when a field is missing or a verified account
      already holds the email, and a 400 changes nothing. */
  lemma SignupRejection(st: Store, name: Option<string>, email: Option<string>, password: Option<string>,
                        draw: SignupDraw, now: nat)
    requires IsOtpCode(draw.otpCode)
    ensures var out := Signup(st, name, email, password, draw, now);
            && (out.response.status == 400 <==>
                  !Truthy(name) || !Truthy(email) || !Truthy(password) || !EmailFree(st, email.value))
            && (out.response.status == 400 ==> out.store == st)
  {
  }

  /** An accepted signup leaves exactly one pending record under the email,
      holding the new name, the hash of the submitted password, a six-digit code and an expiry ten
      minutes ahead; it keeps the record's id when one was pending and takes a
      fresh id otherwise. No other user changes. The answer is 200 when the mail
      went out and 500 when it did not, the record being written either way. */
  lemma SignupUpserts(st: Store, name: string, email: string, password: string, draw: SignupDraw, now: nat)
    requires UsersIndexed(st)
    requires IsOtpCode(draw.otpCode)
    requires name != "" && email != "" && password != ""
    requires EmailFree(st, email)
    ensures var out := Signup(st, Some(name), Some(email), Some(password), draw, now);
            var key := Lower(email);
            var u := out.store.users[key];
            && key in out.store.users
            && out.store.users.Keys == st.users.Keys + {key}
            && (forall k :: k in st.users && k != key ==> out.store.users[k] == st.users[k])
            && u.email == key && u.name == name && u.password == draw.hash(password)
            && !u.isVerified
            && u.otp == Some(Decimal(draw.otpCode)) && |u.otp.value| == 6 && AllDigits(u.otp.value)
            && u.otpExpires == Some(now + 600000)
            && u.id == (if key in st.users then st.users[key].id else st.nextId)
            && out.store.notes == st.notes
            && UsersIndexed(out.store)
            && out.response.status == (if draw.mailDelivered then 200 else 500)
  {
    SixDigits(draw.otpCode);
    var key := Lower(email);
    var out := Signup(st, Some(name), Some(email), Some(password), draw, now);
    var u := out.store.users[key];
    assert u.email == key;
    assert u.name == name && u.password == draw.hash(password);
    assert u.otpExpires == Some(now + 600000);
    assert u.id == (if key in st.users then st.users[key].id else st.nextId);
    assert out.store.users.Keys == st.users.Keys + {key};
  }

  /** Repeating a signup before verification replaces the pending data: the
      record keeps its id and carries only the second attempt's code. */
  lemma SignupRetryOverwrites(st: Store, name: string, email: string, password: string,
                              d1: SignupDraw, d2: SignupDraw, t1: nat, t2: nat)
    requires UsersIndexed(st)
    requires IsOtpCode(d1.otpCode) && IsOtpCode(d2.otpCode)
    requires name != "" && email != "" && password != ""
    requires EmailFree(st, email)
    ensures var s1 := Signup(st, Some(name), Some(email), Some(password), d1, t1).store;
            var s2 := Signup(s1, Some(name), Some(email), Some(password), d2, t2).store;
            && Lower(email) in s1.users && Lower(email) in s2.users
            && s2.users[Lower(email)].id == s1.users[Lower(email)].id
            && s2.users[Lower(email)].otp == Some(Decimal(d2.otpCode))
            && s2.nextId == s1.nextId
  {
    SignupUpserts(st, name, email, password, d1, t1);
    var s1 := Signup(st, Some(name), Some(email), Some(password), d1, t1).store;
    SignupUpserts(s1, name, email, password, d2, t2);
  }

  // ---------------------------------------------------------------------------
  // OTP verification

  /** Verification answers 400 exactly when a field is missing, no user has the
      email, the stored code differs from the submitted one, or the stored
      expiry lies strictly before `now`; a 400 changes nothing. */
  lemma VerifyOtpRejection(st: Store, email: Option<string>, otp: Option<string>, now: nat)
    ensures var out := VerifyOtp(st, email, otp, now);
            && (out.response.status == 400 <==>
                  || !Truthy(email) || !Truthy(otp)
                  || Lower(email.value) !in st.users
                  || st.users[Lower(email.value)].otp != otp
                  || OtpExpired(st.users[Lower(email.value)], now))
            && (out.response.status == 400 ==> out.store == st)
  {
  }

  /** The expiry instant itself is still accepted: a matching code verifies at
      `now == otpExpires` and is refused one millisecond later. */
  lemma OtpExpiryBoundary(st: Store, email: string, code: string, expires: nat)
    requires email != "" && code != ""
    requires Lower(email) in st.users
    requires SchemaValid(st.users[Lower(email)])
    requires st.users[Lower(email)].otp == Some(code)
    requires st.users[Lower(email)].otpExpires == Some(expires)
    ensures VerifyOtp(st, Some(email), Some(code), expires).response.status == 200
    ensures VerifyOtp(st, Some(email), Some(code), expires + 1).response.status == 400
  {
  }

  /** The code is single-use: after a successful verification the same request
      fails at any later time and changes nothing. */
  lemma VerifyOtpSingleUse(st: Store, email: Option<string>, otp: Option<string>, now: nat, later: nat)
    requires VerifyOtp(st, email, otp, now).response.status == 200
    ensures var st' := VerifyOtp(st, email, otp, now).store;
            && VerifyOtp(st', email, otp, later).response == Fail(400, "Invalid or expired OTP.")
            && VerifyOtp(st', email, otp, later).store == st'
  {
  }

  /** Signup followed by verification: the issued code verifies the account at
      any time up to ten minutes later, and any other code, or the same code
      after the ten minutes, is refused. */
  lemma SignupThenVerify(st: Store, name: string, email: string, password: string, draw: SignupDraw,
                         t0: nat, t1: nat, other: nat)
    requires UsersIndexed(st)
    requires IsOtpCode(draw.otpCode) && other != draw.otpCode
    requires name != "" && email != "" && password != ""
    requires |draw.hash(password)| >= MinPasswordLength
    requires EmailFree(st, email)
    ensures var s := Signup(st, Some(name), Some(email), Some(password), draw, t0).store;
            var code := Decimal(draw.otpCode);
            && (t1 <= t0 + OtpLifetimeMs ==>
                  var out := VerifyOtp(s, Some(email), Some(code), t1);
                  out.response.status == 200 && out.store.users[Lower(email)].isVerified)
            && (t1 > t0 + OtpLifetimeMs ==>
                  VerifyOtp(s, Some(email), Some(code), t1).response.status == 400)
            && VerifyOtp(s, Some(email), Some(Decimal(other)), t1).response.status == 400
  {
    SignupUpserts(st, name, email, password, draw, t0);
    SixDigits(draw.otpCode);
    if Decimal(other) == Decimal(draw.otpCode) {
      DecimalInjective(other, draw.otpCode);
    }
  }

  /** In a store that satisfies the invariant, the document validation behind
      `user.save()` never fails, so verification never answers 500. */
  lemma VerifyOtpSaveSucceeds(st: Store, email: Option<string>, otp: Option<string>, now: nat)
    requires StoreValid(st)
    ensures VerifyOtp(st, email, otp, now).response.status in {200, 400}
  {
    if Truthy(email) && Lower(email.value) in st.users {
      assert UserWellFormed(st.users[Lower(email.value)]);
    }
  }

  // ---------------------------------------------------------------------------
  // Login

  /** An unknown email and a wrong password are indistinguishable: both stores
      answer with the same response, and neither store changes. */
  lemma LoginNoEnumeration(env: Env, unknown: Store, known: Store, email: string, password: string, now: nat)
    requires email != "" && password != ""
    requires Lower(email) !in unknown.users
    requires Lower(email) in known.users
    requires !env.compare(password, known.users[Lower(email)].password)
    ensures Login(env, unknown, Some(email), Some(password), now).response
         == Login(env, known, Some(email), Some(password), now).response
         == Fail(400, "Invalid email or password")
  {
  }

  /** A password that matches the stored hash logs in whether or not the
      account was ever verified; the token signs `{ id, email }` with an expiry
      one day after issue, and the body echoes id, name and email. */
  lemma LoginIgnoresVerification(env: Env, st: Store, email: string, password: string, now: nat)
    requires email != "" && password != ""
    requires Lower(email) in st.users
    requires env.compare(password, st.users[Lower(email)].password)
    ensures var u := st.users[Lower(email)];
            var out := Login(env, st, Some(email), Some(password), now);
            var c := SessionClaims(u, now);
            && out.response.status == 200
            && out.response.body == Session(env.sign(c), u.id, u.name, u.email)
            && c.id == u.id && c.email == u.email && c.iat == now / 1000 && c.exp == c.iat + 86400
  {
  }

  /** Round trip: with bcrypt keeping its promise, the password given at an
      accepted signup logs in straight away, before any verification, to the
      record the signup wrote, whether or not the mail went out. */
  lemma SignupThenLogin(env: Env, st: Store, name: string, email: string, password: string,
                        draw: SignupDraw, t0: nat, t1: nat)
    requires UsersIndexed(st)
    requires IsOtpCode(draw.otpCode) && HashMatches(env, draw)
    requires name != "" && email != "" && password != ""
    requires EmailFree(st, email)
    ensures var s := Signup(st, Some(name), Some(email), Some(password), draw, t0).store;
            var out := Login(env, s, Some(email), Some(password), t1);
            && Lower(email) in s.users
            && out.response.status == 200
            && out.response.body.Session?
            && out.response.body.userId == s.users[Lower(email)].id
            && out.response.body.email == Lower(email)
  {
    SignupUpserts(st, name, email, password, draw, t0);
    assert env.compare(password, draw.hash(password));
  }

  /** The full account lifecycle: after signup and verification with the
      mailed code, the signup password still logs in, now to the verified
      record, with the id the signup assigned. */
  lemma SignupVerifyThenLogin(env: Env, st: Store, name: string, email: string, password: string,
                              draw: SignupDraw, t0: nat, t1: nat, t2: nat)
    requires UsersIndexed(st)
    requires IsOtpCode(draw.otpCode) && HashMatches(env, draw) && HashLongEnough(draw)
    requires name != "" && email != "" && password != ""
    requires EmailFree(st, email)
    requires t1 <= t0 + OtpLifetimeMs
    ensures var s1 := Signup(st, Some(name), Some(email), Some(password), draw, t0).store;
            var s2 := VerifyOtp(s1, Some(email), Some(Decimal(draw.otpCode)), t1).store;
            var out := Login(env, s2, Some(email), Some(password), t2);
            && Lower(email) in s2.users && s2.users[Lower(email)].isVerified
            && out.response.status == 200
            && out.response.body.Session?
            && out.response.body.userId == s1.users[Lower(email)].id
  {
    SignupUpserts(st, name, email, password, draw, t0);
    assert |draw.hash(password)| >= MinPasswordLength;
    SignupThenVerify(st, name, email, password, draw, t0, t1, if draw.otpCode == 100000 then 100001 else 100000);
    assert env.compare(password, draw.hash(password));
  }

  // ---------------------------------------------------------------------------
  // Login token through the gateway

  /** The signer and verifier agree: a signed payload verifies to itself
      before its expiry. */
  ghost predicate SignVerifies(env: Env) {
    forall c: Claims, t: nat :: t < c.exp ==> env.verify(env.sign(c), t) == Some(c)
  }

  /** Signed tokens are non-empty and contain no space (JWTs are dot-separated
      base64url). */
  ghost predicate TokensAreWords(env: Env) {
    forall c: Claims :: env.sign(c) != "" && SpaceFree(env.sign(c))
  }

  /** The token a login issues, sent back as `Bearer <token>` before the day is
      over, passes the gateway carrying the user's id and email. */
  lemma LoginTokenAuthenticates(env: Env, st: Store, email: string, password: string, now: nat, later: nat)
    requires SignVerifies(env) && TokensAreWords(env)
    requires email != "" && password != ""
    requires Lower(email) in st.users
    requires env.compare(password, st.users[Lower(email)].password)
    requires later / 1000 < now / 1000 + SessionLifetimeSec
    ensures var out := Login(env, st, Some(email), Some(password), now);
            var o := Guard(env, Some("Bearer " + out.response.body.token), later);
            && out.response.body.Session?
            && o.Proceed?
            && o.identity.id == st.users[Lower(email)].id
            && o.identity.email == st.users[Lower(email)].email
  {
    var u := st.users[Lower(email)];
    var c := SessionClaims(u, now);
    var token := env.sign(c);
    assert Login(env, st, Some(email), Some(password), now).response.body == Session(token, u.id, u.name, u.email);
    assert later / 1000 < c.exp;
    assert env.verify(token, later / 1000) == Some(c);
    assert SpaceFree("Bearer");
    assert "Bearer" + " " + token == "Bearer " + token;
    VerifiedTokenProceeds("Bearer", token, env.verify, later / 1000, c);
  }

  // ---------------------------------------------------------------------------
  // Email case

  /** The `lowercase` setter also runs on query filters, so two emails that
      differ only in the case of ASCII letters are the same account to every
      account route: signup, verification and login answer identically and
      leave the same store. */
  lemma EmailCaseInsensitive(env: Env, st: Store, name: Option<string>, e1: string, e2: string,
                             password: Option<string>, otp: Option<string>, draw: SignupDraw, now: nat)
    requires IsOtpCode(draw.otpCode)
    requires |e1| == |e2| && forall i :: 0 <= i < |e1| ==> SameLetter(e1[i], e2[i])
    ensures Signup(st, name, Some(e1), password, draw, now) == Signup(st, name, Some(e2), password, draw, now)
    ensures VerifyOtp(st, Some(e1), otp, now) == VerifyOtp(st, Some(e2), otp, now)
    ensures Login(env, st, Some(e1), password, now) == Login(env, st, Some(e2), password, now)
  {
    LowerEqualIffSameLetters(e1, e2);
  }
}

=== FILE: auth_gateway.dfy ===
/** The `authenticateToken` middleware: take the second word of the
    Authorization header as the token, answer 401 when there is none, 403 when
    the verifier rejects it, and otherwise pass the decoded claims on as the
    request's identity. The JWT verifier is a parameter (an oracle); the scheme
    word in front of the token is never inspected. */
module AuthGateway {
  import opened JsSemantics

  /** The decoded JWT payload: the signed `{ id, email }` plus the `iat` and
      `exp` (seconds) that the signer adds. */
  datatype Claims = Claims(id: nat, email: string, iat: nat, exp: nat)

  /** The three ways a request leaves the middleware: exactly one happens. */
  datatype Outcome = MissingToken | InvalidToken | Proceed(identity: Claims)

  /** `authHeader && authHeader.split(' ')[1]`, kept only when truthy. A
      token found is never empty and never contains a space; without a header
      there is no token. */
  function BearerToken(header: Option<string>): (t: Option<string>)
    ensures t.Some? ==> t.value != "" && SpaceFree(t.value)
    ensures header.None? ==> t.None?
  {
    if header.None? then None
    else
      var parts := Split(header.value);
      if |parts| < 2 || parts[1] == "" then None else Some(parts[1])
  }

  /** The middleware's decision. `verify(token, nowSec)` stands for
      `jwt.verify` with the server secret at clock time `nowSec`. */
  function Authenticate(header: Option<string>, verify: (string, nat) -> Option<Claims>, nowSec: nat): (o: Outcome)
    ensures o.MissingToken? <==> BearerToken(header).None?
    ensures o.InvalidToken? <==> BearerToken(header).Some? && verify(BearerToken(header).value, nowSec).None?
    ensures o.Proceed? ==> BearerToken(header).Some? && verify(BearerToken(header).value, nowSec) == Some(o.identity)
  {
    match BearerToken(header)
    case None => MissingToken
    case Some(token) =>
      match verify(token, nowSec)
      case None => InvalidToken
      case Some(claims) => Proceed(claims)
  }

  // ---------------------------------------------------------------------------
  // Header parsing, stated without `split`

  /** A header `scheme + " " + token + rest` whose first two words are
      `scheme` and `token` yields `token` whatever the scheme, unless `token`
      is empty (as in "Bearer  x"), in which case there is none. */
  lemma BearerTokenOfHeader(scheme: string, token: string, rest: string)
    requires SpaceFree(scheme) && SpaceFree(token)
    requires rest == "" || rest[0] == ' '
    ensures BearerToken(Some(scheme + " " + token + rest)) == (if token == "" then None else Some(token))
  {
    assert scheme + " " + token + rest == scheme + " " + (token + rest);
    SplitAtFirstSpace(scheme, token + rest);
    SplitHead(token, rest);
  }

  /** A header without any space (including the empty header) carries no token,
      so the answer is 401 whatever the verifier would have said. */
  lemma NoSpaceNoToken(header: string, verify: (string, nat) -> Option<Claims>, nowSec: nat)
    requires SpaceFree(header)
    ensures Authenticate(Some(header), verify, nowSec) == MissingToken
  {
    SplitSpaceFree(header);
  }

  /** A header `scheme + " " + token` with a token the verifier accepts lets the
      request through carrying exactly the verifier's claims. */
  lemma VerifiedTokenProceeds(scheme: string, token: string, verify: (string, nat) -> Option<Claims>, nowSec: nat, claims: Claims)
    requires SpaceFree(scheme) && SpaceFree(token) && token != ""
    requires verify(token, nowSec) == Some(claims)
    ensures Authenticate(Some(scheme + " " + token), verify, nowSec) == Proceed(claims)
  {
    assert scheme + " " + token == scheme + " " + token + "";
    BearerTokenOfHeader(scheme, token, "");
  }

  /** A token the verifier rejects always ends in 403, never in 401 or Proceed. */
  lemma RejectedTokenForbidden(scheme: string, token: string, verify: (string, nat) -> Option<Claims>, nowSec: nat)
    requires SpaceFree(scheme) && SpaceFree(token) && token != ""
    requires verify(token, nowSec).None?
    ensures Authenticate(Some(scheme + " " + token), verify, nowSec) == InvalidToken
  {
    assert scheme + " " + token == scheme + " " + token + "";
    BearerTokenOfHeader(scheme, token, "");
  }
}

=== FILE: data_store.dfy ===
/** The two collections the handlers read and write, as one immutable value:
    users keyed by their (lower-cased) email, which is the unique index, and
    notes in natural (insertion) order. `nextId` stands for ObjectId generation. */
module DataStore {
  import opened JsSemantics
  import opened UserModel
  import opened NoteModel

  datatype Store = Store(users: map<string, User>, notes: seq<Note>, nextId: nat)

  const EmptyStore: Store := Store(map[], [], 0)

  /** Each user sits under its own email, so the map is the unique index. */
  predicate UsersIndexed(st: Store) {
    forall e :: e in st.users ==> st.users[e].email == e
  }

  /** Every ObjectId handed out so far is below `nextId`, and no two users or
      two notes share one. */
  predicate IdsFresh(st: Store) {
    && (forall e :: e in st.users ==> st.users[e].id < st.nextId)
    && (forall e1, e2 :: e1 in st.users && e2 in st.users && e1 != e2 ==>
          st.users[e1].id != st.users[e2].id)
    && (forall i :: 0 <= i < |st.notes| ==> st.notes[i].id < st.nextId)
    && (forall i, j :: 0 <= i < j < |st.notes| ==> st.notes[i].id != st.notes[j].id)
  }

  /** The store invariant: the email index, fresh and distinct ids, and every
      record satisfying its schema. */
  predicate StoreValid(st: Store) {
    && UsersIndexed(st)
    && IdsFresh(st)
    && (forall e :: e in st.users ==> UserWellFormed(st.users[e]))
    && (forall i :: 0 <= i < |st.notes| ==> NoteValid(st.notes[i]))
  }

  /** The ownership-scoped filter `{ _id: id, user: owner }`. */
  predicate Matches(n: Note, id: nat, owner: nat) {
    n.id == id && n.owner == owner
  }

  /** Index of the first note matching `{ _id: id, user: owner }`, or None
      exactly when no note matches. */
  function FindOwned(notes: seq<Note>, id: nat, owner: nat): (r: Option<nat>)
    ensures r.Some? ==> r.value < |notes| && Matches(notes[r.value], id, owner)
    ensures r.Some? ==> forall i :: 0 <= i < r.value ==> !Matches(notes[i], id, owner)
    ensures r.None? <==> forall i :: 0 <= i < |notes| ==> !Matches(notes[i], id, owner)
  {
    if |notes| == 0 then None
    else if Matches(notes[0], id, owner) then Some(0)
    else
      match FindOwned(notes[1..], id, owner)
      case None => None
      case Some(k) => Some(k + 1)
  }

  /** `find({ user: owner })` before sorting: keeps the owner's notes, in
      order, each with its multiplicity, and drops everything else. */
  function OwnedBy(notes: seq<Note>, owner: nat): (r: seq<Note>)
    ensures forall i :: 0 <= i < |r| ==> r[i].owner == owner
    ensures forall n :: multiset(r)[n] == (if n.owner == owner then multiset(notes)[n] else 0)
  {
    if |notes| == 0 then []
    else
      assert notes == [notes[0]] + notes[1..];
      if notes[0].owner == owner then [notes[0]] + OwnedBy(notes[1..], owner)
      else OwnedBy(notes[1..], owner)
  }

  /** Newest first: `createdAt` never increases along the sequence. */
  predicate SortedNewestFirst(s: seq<Note>) {
    forall i, j :: 0 <= i < j < |s| ==> s[i].createdAt >= s[j].createdAt
  }

  /** Inserts `n` into a newest-first sequence before the first strictly older note. */
  function InsertNewestFirst(n: Note, s: seq<Note>): (r: seq<Note>)
    requires SortedNewestFirst(s)
    ensures SortedNewestFirst(r)
    ensures multiset(r) == multiset(s) + multiset{n}
    ensures |r| == |s| + 1
    ensures |s| > 0 ==> r[0] == n || r[0] == s[0]
  {
    if |s| == 0 then [n]
    else if n.createdAt >= s[0].createdAt then [n] + s
    else
      var tail := InsertNewestFirst(n, s[1..]);
      assert s == [s[0]] + s[1..];
      [s[0]] + tail
  }

  /** `sort({ createdAt: -1 })`: a newest-first permutation of its input. */
  function SortNewestFirst(s: seq<Note>): (r: seq<Note>)
    ensures SortedNewestFirst(r)
    ensures multiset(r) == multiset(s)
  {
    if |s| == 0 then []
    else
      assert s == [s[0]] + s[1..];
      InsertNewestFirst(s[0], SortNewestFirst(s[1..]))
  }

  /** The collection after `findOneAndDelete` removed the note at index `i`. */
  function RemoveAt(notes: seq<Note>, i: nat): (r: seq<Note>)
    requires i < |notes|
    ensures |r| == |notes| - 1
    ensures forall k :: 0 <= k < i ==> r[k] == notes[k]
    ensures forall k :: i <= k < |r| ==> r[k] == notes[k + 1]
  {
    notes[..i] + notes[i + 1..]
  }
}

=== FILE: js_semantics.dfy ===
/** The JavaScript behaviour the request handlers and the schemas depend on:
    truthiness of body fields, String.prototype.trim, the `lowercase` setter,
    `split(' ')`, and Number.prototype.toString for the OTP. */
module JsSemantics {

  datatype Option<+T> = None | Some(value: T) {
    /** The wrapped value, or `default` when absent. */
    function GetOr(default: T): T {
      match this
      case Some(v) => v
      case None => default
    }
  }

  /** A JSON body field is truthy when it is present and not the empty string:
      `undefined`, `null` and `""` are all falsy. */
  predicate Truthy(f: Option<string>): (b: bool)
    ensures b <==> f.Some? && |f.value| >= 1
  {
    match f
    case None => false
    case Some(s) => s != ""
  }

  // ---------------------------------------------------------------------------
  // String.prototype.trim

  /** WhiteSpace and LineTerminator code points, the characters `trim` removes. */
  predicate IsWhitespace(c: char) {
    || c == '\t' || c == '\n' || c == '\U{B}' || c == '\U{C}' || c == '\r' || c == ' '
    || c == '\U{A0}' || c == '\U{1680}' || ('\U{2000}' <= c <= '\U{200A}')
    || c == '\U{2028}' || c == '\U{2029}' || c == '\U{202F}' || c == '\U{205F}'
    || c == '\U{3000}' || c == '\U{FEFF}'
  }

  /** Neither end of `s` is whitespace. */
  predicate IsTrimmed(s: string) {
    |s| == 0 || (!IsWhitespace(s[0]) && !IsWhitespace(s[|s| - 1]))
  }

  /** Length of the longest whitespace prefix. */
  function LeadingSpace(s: string): (k: nat)
    ensures k <= |s|
    ensures forall i :: 0 <= i < k ==> IsWhitespace(s[i])
    ensures k < |s| ==> !IsWhitespace(s[k])
  {
    if |s| == 0 || !IsWhitespace(s[0]) then 0 else 1 + LeadingSpace(s[1..])
  }

  /** Length of the longest whitespace suffix. */
  function TrailingSpace(s: string): (k: nat)
    ensures k <= |s|
    ensures forall i :: |s| - k <= i < |s| ==> IsWhitespace(s[i])
    ensures k < |s| ==> !IsWhitespace(s[|s| - 1 - k])
  {
    if |s| == 0 || !IsWhitespace(s[|s| - 1]) then 0 else 1 + TrailingSpace(s[..|s| - 1])
  }

  /** `s.trim()`: the result is the slice of `s` that starts after the leading
      whitespace, has no whitespace at either end, and is followed only by
      whitespace. */
  function Trim(s: string): (r: string)
    ensures IsTrimmed(r)
    ensures var a := LeadingSpace(s);
              && a + |r| <= |s| && r == s[a..a + |r|]
              && forall i :: a + |r| <= i < |s| ==> IsWhitespace(s[i])
    ensures IsTrimmed(s) ==> r == s
  {
    var a := LeadingSpace(s);
    var b := TrailingSpace(s[a..]);
    s[a..|s| - b]
  }

  // ---------------------------------------------------------------------------
  // The `lowercase: true` schema setter (ASCII letters only)

  function LowerChar(c: char): (d: char)
    ensures !('A' <= d <= 'Z')
    ensures !('A' <= c <= 'Z') ==> d == c
    ensures 'A' <= c <= 'Z' ==> d as int == c as int + 32 && 'a' <= d <= 'z'
  {
    if 'A' <= c <= 'Z' then (c as int - 'A' as int + 'a' as int) as char else c
  }

  predicate IsLowerCase(s: string) {
    forall i :: 0 <= i < |s| ==> !('A' <= s[i] <= 'Z')
  }

  /** `s.toLowerCase()`: same length, every capital replaced by its own small
      letter (32 code points further on), every other character kept, and a
      string that is already lower case is its own image. */
  function Lower(s: string): (r: string)
    ensures |r| == |s|
    ensures IsLowerCase(r)
    ensures IsLowerCase(s) ==> r == s
    ensures forall i :: 0 <= i < |s| && !('A' <= s[i] <= 'Z') ==> r[i] == s[i]
    ensures forall i :: 0 <= i < |s| && 'A' <= s[i] <= 'Z' ==> r[i] as int == s[i] as int + 32
  {
    seq(|s|, i requires 0 <= i < |s| => LowerChar(s[i]))
  }

  /** `c` and `d` are the same character up to ASCII case. */
  predicate SameLetter(c: char, d: char) {
    || c == d
    || ('A' <= c <= 'Z' && d as int == c as int + 32)
    || ('A' <= d <= 'Z' && c as int == d as int + 32)
  }

  /** Two strings have the same lower-cased image exactly when they differ
      only in the case of ASCII letters. */
  lemma LowerEqualIffSameLetters(a: string, b: string)
    ensures Lower(a) == Lower(b) <==> |a| == |b| && forall i :: 0 <= i < |a| ==> SameLetter(a[i], b[i])
  {
    if |a| == |b| && forall i :: 0 <= i < |a| ==> SameLetter(a[i], b[i]) {
      forall i | 0 <= i < |a|
        ensures Lower(a)[i] == Lower(b)[i]
      {
        assert SameLetter(a[i], b[i]);
      }
    }
    if Lower(a) == Lower(b) {
      forall i | 0 <= i < |a|
        ensures SameLetter(a[i], b[i])
      {
        assert Lower(a)[i] == Lower(b)[i];
      }
    }
  }

  // ---------------------------------------------------------------------------
  // `s.split(' ')` and its inverse `parts.join(' ')`

  /** `parts.join(' ')`. */
  function Join(parts: seq<string>): string
    requires |parts| >= 1
  {
    if |parts| == 1 then parts[0] else parts[0] + " " + Join(parts[1..])
  }

  predicate SpaceFree(s: string) {
    forall i :: 0 <= i < |s| ==> s[i] != ' '
  }

  /** `s.split(' ')`: at least one part (the empty string splits into `[""]`),
      no part contains a space, and joining the parts gives `s` back. */
  function Split(s: string): (parts: seq<string>)
    ensures |parts| >= 1
    ensures forall i :: 0 <= i < |parts| ==> SpaceFree(parts[i])
    ensures Join(parts) == s
  {
    if |s| == 0 then [""]
    else
      var rest := Split(s[1..]);
      if s[0] == ' ' then
        assert ([""] + rest)[1..] == rest;
        [""] + rest
      else
        var head := [s[0]] + rest[0];
        var parts := [head] + rest[1..];
        assert parts[1..] == rest[1..];
        assert Join(parts) == s by {
          if |rest| > 1 {
            assert Join(rest) == rest[0] + " " + Join(rest[1..]);
            assert s == [s[0]] + s[1..];
          }
        }
        parts
  }

  // ---------------------------------------------------------------------------
  // Number.prototype.toString for natural numbers

  predicate IsDigit(c: char) {
    '0' <= c <= '9'
  }

  predicate AllDigits(s: string) {
    forall i :: 0 <= i < |s| ==> IsDigit(s[i])
  }

  function DigitChar(d: nat): (c: char)
    requires d < 10
    ensures IsDigit(c)
    ensures c as int - '0' as int == d
  {
    ('0' as int + d) as char
  }

  /** The decimal rendering of `n`, without leading zeros. */
  function Decimal(n: nat): (s: string)
    ensures |s| >= 1
    ensures AllDigits(s)
    ensures n >= 10 ==> s[0] != '0'
  {
    if n < 10 then [DigitChar(n)] else Decimal(n / 10) + [DigitChar(n % 10)]
  }

  /** Reads a string of decimal digits back as a number. */
  function ParseDecimal(s: string): nat
    requires AllDigits(s)
  {
    if |s| == 0 then 0
    else ParseDecimal(s[..|s| - 1]) * 10 + (s[|s| - 1] as int - '0' as int)
  }

  function Pow10(k: nat): (p: nat)
    ensures p >= 1
  {
    if k == 0 then 1 else 10 * Pow10(k - 1)
  }

  // ---------------------------------------------------------------------------
  // Lemmas

  /** A string without spaces does not split. */
  lemma {:induction false} SplitSpaceFree(a: string)
    requires SpaceFree(a)
    ensures Split(a) == [a]
  {
    if |a| > 0 {
      SplitSpaceFree(a[1..]);
      assert [a[0]] + a[1..] == a;
    }
  }

  /** Splitting at the first space: the space-free word before it is the first part. */
  lemma {:induction false} SplitAtFirstSpace(a: string, b: string)
    requires SpaceFree(a)
    ensures Split(a + " " + b) == [a] + Split(b)
  {
    if |a| == 0 {
      assert a + " " + b == [' '] + b;
      assert (a + " " + b)[1..] == b;
    } else {
      assert (a + " " + b)[1..] == a[1..] + " " + b;
      SplitAtFirstSpace(a[1..], b);
      assert [a[0]] + a[1..] == a;
    }
  }

  /** Round trip the other way round: joining space-free parts and splitting
      again gives the same parts. */
  lemma {:induction false} SplitJoin(parts: seq<string>)
    requires |parts| >= 1
    requires forall i :: 0 <= i < |parts| ==> SpaceFree(parts[i])
    ensures Split(Join(parts)) == parts
  {
    if |parts| == 1 {
      SplitSpaceFree(parts[0]);
    } else {
      SplitJoin(parts[1..]);
      SplitAtFirstSpace(parts[0], Join(parts[1..]));
      assert [parts[0]] + parts[1..] == parts;
    }
  }

  /** The first part is the space-free word in front of the first space (or of the end). */
  lemma SplitHead(a: string, b: string)
    requires SpaceFree(a)
    requires b == "" || b[0] == ' '
    ensures Split(a + b)[0] == a
  {
    if b == "" {
      assert a + b == a;
      SplitSpaceFree(a);
    } else {
      assert a + b == a + " " + b[1..];
      SplitAtFirstSpace(a, b[1..]);
    }
  }

  /** Reading back the decimal rendering gives the number. */
  lemma {:induction false} ParseDecimalInverse(n: nat)
    ensures ParseDecimal(Decimal(n)) == n
  {
    if n >= 10 {
      var prefix := Decimal(n / 10);
      var s := prefix + [DigitChar(n % 10)];
      assert s[..|s| - 1] == prefix;
      ParseDecimalInverse(n / 10);
    }
  }

  /** Distinct numbers have distinct renderings. */
  lemma DecimalInjective(a: nat, b: nat)
    requires Decimal(a) == Decimal(b)
    ensures a == b
  {
    ParseDecimalInverse(a);
    ParseDecimalInverse(b);
  }

  /** A number with k decimal digits renders as k characters. */
  lemma {:induction false} DecimalLength(n: nat, k: nat)
    requires k >= 1
    requires Pow10(k - 1) <= n < Pow10(k)
    ensures |Decimal(n)| == k
  {
    if k > 1 {
      assert Pow10(k - 1) == 10 * Pow10(k - 2);
      DecimalLength(n / 10, k - 1);
    }
  }

  /** Every code in 100000..999999 renders as exactly six digits. */
  lemma SixDigits(n: nat)
    requires 100000 <= n <= 999999
    ensures |Decimal(n)| == 6
    ensures AllDigits(Decimal(n))
  {
    assert Pow10(5) == 100000 by {
      assert Pow10(2) == 100;
      assert Pow10(4) == 10000;
    }
    assert Pow10(6) == 1000000;
    DecimalLength(n, 6);
  }
}

=== FILE: note_model.dfy ===
/** The note record of `notesSchema`: a title of at most 200 characters and a
    description of at most 1000, both required and trimmed, one required owner
    reference, and the `createdAt`/`updatedAt` timestamps. */
module NoteModel {
  import opened JsSemantics

  datatype Note = Note(
    id: nat,           // the document's ObjectId
    title: string,
    description: string,
    owner: nat,        // the `user` reference
    createdAt: nat,    // milliseconds since the epoch
    updatedAt: nat)

  const MaxTitleLength: nat := 200
  const MaxDescriptionLength: nat := 1000

  /** A stored text path: required (non-empty), within its maximum length, and
      already trimmed. */
  predicate ValidText(s: string, maxLength: nat) {
    s != "" && |s| <= maxLength && IsTrimmed(s)
  }

  predicate NoteValid(n: Note) {
    ValidText(n.title, MaxTitleLength) && ValidText(n.description, MaxDescriptionLength)
  }

  /** A raw string cast to a text path: the `trim` setter runs first, then the
      `required` and `maxlength` validators. The cast succeeds exactly when the
      trimmed value is valid, and then yields that trimmed value. */
  function CastText(raw: string, maxLength: nat): (r: Option<string>)
    ensures r.Some? ==> r.value == Trim(raw) && ValidText(r.value, maxLength)
    ensures r.None? ==> !ValidText(Trim(raw), maxLength)
  {
    var t := Trim(raw);
    if t != "" && |t| <= maxLength then Some(t) else None
  }
}

=== FILE: notes_properties.dfy ===
/** Properties of the ownership-scoped notes routes. */
module NotesProperties {
  import opened JsSemantics
  import opened NoteModel
  import opened AuthGateway
  import opened DataStore
  import opened Server

  // ---------------------------------------------------------------------------
  // Create

  /** Create answers 400 exactly when a field is missing or a value is no longer
      valid once trimmed (empty, or over 200 / 1000 characters); a 400 changes
      nothing. */
  lemma CreateRejection(st: Store, who: Claims, title: Option<string>, description: Option<string>, now: nat)
    ensures var out := CreateNote(st, who, title, description, now);
            && (out.response.status == 400 <==>
                  || !Truthy(title) || !Truthy(description)
                  || !ValidText(Trim(title.value), MaxTitleLength)
                  || !ValidText(Trim(description.value), MaxDescriptionLength))
            && (out.response.status == 400 ==> out.store == st)
  {
  }

  /** An accepted note is owned by the token identity, holds the trimmed
      values, carries a fresh id, has `createdAt == updatedAt == now`, and is
      appended after every existing note. */
  lemma CreateStoresOwnedNote(st: Store, who: Claims, title: string, description: string, now: nat)
    requires IdsFresh(st)
    requires ValidText(Trim(title), MaxTitleLength) && ValidText(Trim(description), MaxDescriptionLength)
    ensures var out := CreateNote(st, who, Some(title), Some(description), now);
            var n := out.response.body.note;
            && out.response.status == 201 && out.response.body.NoteBody?
            && n.owner == who.id
            && n.title == Trim(title) && n.description == Trim(description)
            && n.createdAt == now && n.updatedAt == now
            && (forall i :: 0 <= i < |st.notes| ==> st.notes[i].id != n.id)
            && out.store.notes == st.notes + [n]
            && IdsFresh(out.store)
  {
    var out := CreateNote(st, who, Some(title), Some(description), now);
    var n := out.response.body.note;
    assert n.id == st.nextId;
    assert forall i :: 0 <= i < |out.store.notes| ==> out.store.notes[i].id < out.store.nextId;
  }

  // ---------------------------------------------------------------------------
  // List

  /** The list holds exactly the requester's notes, each as often as stored,
      newest first; no other user's note appears. */
  lemma ListExactlyOwned(st: Store, who: Claims)
    ensures var r := ListNotes(st, who).response.body.notes;
            && SortedNewestFirst(r)
            && (forall n :: multiset(r)[n] == (if n.owner == who.id then multiset(st.notes)[n] else 0))
            && (forall n :: n in r <==> n in st.notes && n.owner == who.id)
  {
    var owned := OwnedBy(st.notes, who.id);
    var r := ListNotes(st, who).response.body.notes;
    assert multiset(r) == multiset(owned);
    forall n
      ensures n in r <==> n in st.notes && n.owner == who.id
    {
      assert n in r <==> multiset(r)[n] > 0;
      assert n in st.notes <==> multiset(st.notes)[n] > 0;
    }
  }

  /** Round trip: a note just created is in its owner's list. */
  lemma CreateThenList(st: Store, who: Claims, title: string, description: string, now: nat)
    requires ValidText(Trim(title), MaxTitleLength) && ValidText(Trim(description), MaxDescriptionLength)
    ensures var out := CreateNote(st, who, Some(title), Some(description), now);
            var n := out.response.body.note;
            && n in ListNotes(out.store, who).response.body.notes
            && n.title == Trim(title) && n.description == Trim(description)
  {
    var out := CreateNote(st, who, Some(title), Some(description), now);
    var n := out.response.body.note;
    assert out.store.notes[|st.notes|] == n;
    ListExactlyOwned(out.store, who);
  }

  // ---------------------------------------------------------------------------
  // Update

  /** The fields an update actually sets: each truthy one, trimmed. */
  function NewText(field: Option<string>, current: string): string {
    if Truthy(field) then Trim(field.value) else current
  }

  /** A successful update changes only the matching note and only its supplied
      truthy fields (plus `updatedAt`); id, owner, `createdAt`, the other field
      and every other note stay as they were, and the response is the new note. */
  lemma UpdateChangesOnlySuppliedFields(st: Store, who: Claims, id: PathId, title: Option<string>,
                                        description: Option<string>, now: nat)
    requires UpdateNote(st, who, id, title, description, now).response.status == 200
    ensures var out := UpdateNote(st, who, id, title, description, now);
            && id.IdParam?
            && FindOwned(st.notes, id.id, who.id).Some?
            && var i := FindOwned(st.notes, id.id, who.id).value;
               var before := st.notes[i];
               var after := out.store.notes[i];
               && Matches(before, id.id, who.id)
               && after.id == before.id && after.owner == before.owner && after.createdAt == before.createdAt
               && after.title == NewText(title, before.title)
               && after.description == NewText(description, before.description)
               && after.updatedAt == now
               && out.response.body == NoteBody(after)
               && (forall j :: 0 <= j < |st.notes| && j != i ==> out.store.notes[j] == st.notes[j])
  {
  }

  /** Updating only the title leaves the description as it was. */
  lemma UpdateTitleKeepsDescription(st: Store, who: Claims, id: nat, title: string, now: nat)
    requires ValidText(Trim(title), MaxTitleLength)
    requires FindOwned(st.notes, id, who.id).Some?
    ensures var out := UpdateNote(st, who, IdParam(id), Some(title), None, now);
            var i := FindOwned(st.notes, id, who.id).value;
            && out.response.status == 200
            && out.store.notes[i].title == Trim(title)
            && out.store.notes[i].description == st.notes[i].description
  {
  }

  /** An update with neither field truthy is a 400 before anything else is
      looked at. */
  lemma UpdateNeedsAField(st: Store, who: Claims, id: PathId, title: Option<string>, description: Option<string>, now: nat)
    ensures var out := UpdateNote(st, who, id, title, description, now);
            out.response.status == 400 <==> !Truthy(title) && !Truthy(description)
  {
  }

  /** Without a note matching `{ _id, user }`, two stores answer the same
      update identically: a note of another user cannot be told apart from a
      missing one. */
  lemma UpdateIndistinguishable(s1: Store, s2: Store, who: Claims, id: nat, title: Option<string>,
                                description: Option<string>, now: nat)
    requires FindOwned(s1.notes, id, who.id).None? && FindOwned(s2.notes, id, who.id).None?
    ensures UpdateNote(s1, who, IdParam(id), title, description, now).response
         == UpdateNote(s2, who, IdParam(id), title, description, now).response
    ensures UpdateNote(s1, who, IdParam(id), title, description, now).store == s1
  {
  }

  /** With distinct note ids, a note held by another user is never found for
      the requester. */
  lemma ForeignNoteNotFound(st: Store, who: Claims, i: nat)
    requires IdsFresh(st)
    requires i < |st.notes| && st.notes[i].owner != who.id
    ensures FindOwned(st.notes, st.notes[i].id, who.id).None?
  {
    forall j | 0 <= j < |st.notes|
      ensures !Matches(st.notes[j], st.notes[i].id, who.id)
    {
      if j < i {
        assert st.notes[j].id != st.notes[i].id;
      } else if j > i {
        assert st.notes[i].id != st.notes[j].id;
      }
    }
  }

  /** Updating another user's note, with whatever fields pass validation, is
      a 404 that changes nothing. */
  lemma UpdateForeignNote(st: Store, who: Claims, i: nat, title: Option<string>, description: Option<string>, now: nat)
    requires IdsFresh(st)
    requires i < |st.notes| && st.notes[i].owner != who.id
    requires Truthy(title) || Truthy(description)
    requires Truthy(title) ==> ValidText(Trim(title.value), MaxTitleLength)
    requires Truthy(description) ==> ValidText(Trim(description.value), MaxDescriptionLength)
    ensures var out := UpdateNote(st, who, IdParam(st.notes[i].id), title, description, now);
            out.response.status == 404 && out.store == st
  {
    ForeignNoteNotFound(st, who, i);
    UpdateRejection(st, who, IdParam(st.notes[i].id), title, description, now);
  }

  /** Once a field is truthy, the checks run in the order the handler runs
      them: an uncastable id or a supplied value invalid after trimming is a
      500 (the caught validation or cast error) whether or not the note exists;
      otherwise a missing or foreign note is a 404; otherwise 200. No failure
      changes the store. */
  lemma UpdateRejection(st: Store, who: Claims, id: PathId, title: Option<string>, description: Option<string>, now: nat)
    requires Truthy(title) || Truthy(description)
    ensures var out := UpdateNote(st, who, id, title, description, now);
            && (out.response.status == 500 <==>
                  || id.Uncastable?
                  || (Truthy(title) && !ValidText(Trim(title.value), MaxTitleLength))
                  || (Truthy(description) && !ValidText(Trim(description.value), MaxDescriptionLength)))
            && (out.response.status == 404 <==>
                  out.response.status != 500 && FindOwned(st.notes, id.id, who.id).None?)
            && (out.response.status == 200 <==>
                  out.response.status != 500 && FindOwned(st.notes, id.id, who.id).Some?)
            && (out.response.status != 200 ==> out.store == st)
  {
  }

  // ---------------------------------------------------------------------------
  // Delete

  /** Delete answers 500 exactly for an id that cannot be cast, 404 exactly
      when no note matches `{ _id, user }`, and 200, removing the match,
      exactly when one does. */
  lemma DeleteOutcome(st: Store, who: Claims, id: PathId)
    ensures var out := DeleteNote(st, who, id);
            && (out.response.status == 500 <==> id.Uncastable?)
            && (out.response.status == 404 <==> id.IdParam? && FindOwned(st.notes, id.id, who.id).None?)
            && (out.response.status == 200 <==> id.IdParam? && FindOwned(st.notes, id.id, who.id).Some?)
            && (out.response.status == 200 ==>
                  out.store.notes == RemoveAt(st.notes, FindOwned(st.notes, id.id, who.id).value))
  {
  }

  /** A successful delete removes exactly the matching note, keeping every
      other note in its order; with distinct ids no note with that id is left. */
  lemma DeleteRemovesExactlyOne(st: Store, who: Claims, id: PathId)
    requires DeleteNote(st, who, id).response.status == 200
    ensures var out := DeleteNote(st, who, id);
            && id.IdParam?
            && FindOwned(st.notes, id.id, who.id).Some?
            && var i := FindOwned(st.notes, id.id, who.id).value;
               && Matches(st.notes[i], id.id, who.id)
               && out.store.notes == st.notes[..i] + st.notes[i + 1..]
               && multiset(out.store.notes) == multiset(st.notes) - multiset{st.notes[i]}
               && (IdsFresh(st) ==> forall n :: n in out.store.notes ==> n.id != id.id)
  {
    var out := DeleteNote(st, who, id);
    var i := FindOwned(st.notes, id.id, who.id).value;
    assert st.notes == st.notes[..i] + [st.notes[i]] + st.notes[i + 1..];
    if IdsFresh(st) {
      forall n | n in out.store.notes
        ensures n.id != id.id
      {
        var k :| 0 <= k < |out.store.notes| && out.store.notes[k] == n;
        if k < i {
          assert n == st.notes[k];
        } else {
          assert n == st.notes[k + 1];
        }
      }
    }
  }

  /** Without a note matching `{ _id, user }`, two stores answer the same
      delete identically, and nothing is removed. */
  lemma DeleteIndistinguishable(s1: Store, s2: Store, who: Claims, id: nat)
    requires FindOwned(s1.notes, id, who.id).None? && FindOwned(s2.notes, id, who.id).None?
    ensures DeleteNote(s1, who, IdParam(id)).response == DeleteNote(s2, who, IdParam(id)).response
    ensures DeleteNote(s1, who, IdParam(id)).response.status == 404
    ensures DeleteNote(s1, who, IdParam(id)).store == s1
  {
  }

  // ---------------------------------------------------------------------------
  // Isolation

  /** No notes route run as `who` alters or removes a note of another user:
      every such note is still stored afterwards. */
  lemma OtherOwnersUntouched(st: Store, who: Claims, op: NotesOp, now: nat)
    ensures var out := Notes(st, who, op, now);
            forall n :: n in st.notes && n.owner != who.id ==> n in out.store.notes
  {
    var out := Notes(st, who, op, now);
    forall n | n in st.notes && n.owner != who.id
      ensures n in out.store.notes
    {
      var k :| 0 <= k < |st.notes| && st.notes[k] == n;
      match op
      case ListOp =>
      case CreateOp(_, _) =>
        assert out.store.notes[k] == n;
      case UpdateOp(_, _, _) =>
        assert out.store.notes[k] == n;
      case DeleteOp(_) =>
        if out.response.status == 200 {
          var i := FindOwned(st.notes, op.id.id, who.id).value;
          if k < i {
            assert out.store.notes[k] == n;
          } else {
            assert k != i;
            assert out.store.notes[k - 1] == n;
          }
        }
    }
  }

  // ---------------------------------------------------------------------------
  // Behind the gateway

  /** How the gateway's verdict becomes the answer to a notes request: no
      bearer token is a 401, a token the verifier rejects is a 403, and a
      verified token runs the route as exactly the verifier's claims. */
  lemma GatewayDecides(env: Env, st: Store, auth: Option<string>, op: NotesOp, draw: SignupDraw, now: nat)
    requires IsOtpCode(draw.otpCode)
    ensures var out := Handle(env, st, NotesRequest(auth, op), draw, now);
            var t := BearerToken(auth);
            && (out.response.status == 401 <==> t.None?)
            && (out.response.status == 403 <==> t.Some? && env.verify(t.value, now / 1000).None?)
            && (t.Some? && env.verify(t.value, now / 1000).Some? ==>
                  out == Notes(st, env.verify(t.value, now / 1000).value, op, now))
  {
  }

  /** A token for one user never reaches another user's notes: after any notes
      request, every note not owned by the identity the gateway established
      (every note at all, when the request was turned away) is still stored. */
  lemma HandleOtherOwnersUntouched(env: Env, st: Store, auth: Option<string>, op: NotesOp, draw: SignupDraw, now: nat)
    requires IsOtpCode(draw.otpCode)
    ensures var out := Handle(env, st, NotesRequest(auth, op), draw, now);
            var g := Guard(env, auth, now);
            forall n :: n in st.notes && (g.Proceed? ==> n.owner != g.identity.id) ==> n in out.store.notes
  {
    var g := Guard(env, auth, now);
    if g.Proceed? {
      OtherOwnersUntouched(st, g.identity, op, now);
    }
  }
}

=== FILE: scenario.dfy ===
/** The end-to-end walk through the whole API: sign up, verify the mailed
    code, log in, create a note with the session token, and list it. */
module Scenario {
  import opened JsSemantics
  import opened UserModel
  import opened NoteModel
  import opened AuthGateway
  import opened DataStore
  import opened Server
  import opened AccountProperties

  const AliceEmail: string := "alice@x.com"

  /** Alice's record once verified, under the first ObjectId. */
  function VerifiedAlice(hash: string): User {
    User(0, "Alice", AliceEmail, hash, None, None, true)
  }

  lemma AliceEmailIsLowerCase()
    ensures Lower(AliceEmail) == AliceEmail
  {
    assert IsLowerCase(AliceEmail);
  }

  lemma SignupStep(env: Env, draw: SignupDraw, t0: nat)
    requires IsOtpCode(draw.otpCode) && draw.mailDelivered
    ensures Handle(env, EmptyStore, SignupRequest(Some("Alice"), Some(AliceEmail), Some("secret1")), draw, t0)
         == Step(Response(200, Message("OTP sent to your email. Please verify.")),
                 Store(map[AliceEmail := NewPendingUser(0, AliceEmail, "Alice", draw.hash("secret1"), Decimal(draw.otpCode), t0 + OtpLifetimeMs)], [], 1))
  {
    AliceEmailIsLowerCase();
  }

  lemma VerifyStep(env: Env, draw: SignupDraw, hash: string, code: nat, t0: nat, t1: nat)
    requires IsOtpCode(draw.otpCode)
    requires |hash| >= MinPasswordLength
    requires t1 <= t0 + OtpLifetimeMs
    ensures
      var s1 := Store(map[AliceEmail := NewPendingUser(0, AliceEmail, "Alice", hash, Decimal(code), t0 + OtpLifetimeMs)], [], 1);
      Handle(env, s1, VerifyOtpRequest(Some(AliceEmail), Some(Decimal(code))), draw, t1)
        == Step(Response(200, Message("Account verified successfully. Please log in.")),
                Store(map[AliceEmail := VerifiedAlice(hash)], [], 1))
  {
    AliceEmailIsLowerCase();
    var s1 := Store(map[AliceEmail := NewPendingUser(0, AliceEmail, "Alice", hash, Decimal(code), t0 + OtpLifetimeMs)], [], 1);
    assert s1.users[AliceEmail := VerifiedAlice(hash)] == map[AliceEmail := VerifiedAlice(hash)];
  }

  lemma LoginStep(env: Env, draw: SignupDraw, t2: nat)
    requires IsOtpCode(draw.otpCode)
    requires env.compare("secret1", draw.hash("secret1"))
    ensures
      var s2 := Store(map[AliceEmail := VerifiedAlice(draw.hash("secret1"))], [], 1);
      Handle(env, s2, LoginRequest(Some(AliceEmail), Some("secret1")), draw, t2)
        == Step(Response(200, Session(env.sign(SessionClaims(VerifiedAlice(draw.hash("secret1")), t2)), 0, "Alice", AliceEmail)), s2)
  {
    AliceEmailIsLowerCase();
  }

  /** The session token passes the gateway at any time before its expiry. */
  lemma TokenStep(env: Env, hash: string, t2: nat, t: nat)
    requires SignVerifies(env) && TokensAreWords(env)
    requires t / 1000 < t2 / 1000 + SessionLifetimeSec
    ensures Guard(env, Some("Bearer " + env.sign(SessionClaims(VerifiedAlice(hash), t2))), t) == Proceed(SessionClaims(VerifiedAlice(hash), t2))
  {
    var c := SessionClaims(VerifiedAlice(hash), t2);
    var token := env.sign(c);
    assert env.verify(token, t / 1000) == Some(c);
    assert SpaceFree("Bearer") && "Bearer" + " " + token == "Bearer " + token;
    VerifiedTokenProceeds("Bearer", token, env.verify, t / 1000, c);
  }

  lemma CreateStep(env: Env, draw: SignupDraw, hash: string, s2: Store, t2: nat, t3: nat)
    requires IsOtpCode(draw.otpCode)
    requires SignVerifies(env) && TokensAreWords(env)
    requires t3 / 1000 < t2 / 1000 + SessionLifetimeSec
    requires s2.notes == [] && s2.nextId == 1
    ensures
      var auth := Some("Bearer " + env.sign(SessionClaims(VerifiedAlice(hash), t2)));
      Handle(env, s2, NotesRequest(auth, CreateOp(Some("Shopping"), Some("Milk, eggs"))), draw, t3)
        == Step(Response(201, NoteBody(Note(1, "Shopping", "Milk, eggs", 0, t3, t3))),
                s2.(notes := [Note(1, "Shopping", "Milk, eggs", 0, t3, t3)], nextId := 2))
  {
    TokenStep(env, hash, t2, t3);
    assert IsTrimmed("Shopping") && IsTrimmed("Milk, eggs");
  }

  lemma ListStep(env: Env, draw: SignupDraw, hash: string, s: Store, note: Note, t2: nat, t4: nat)
    requires IsOtpCode(draw.otpCode)
    requires SignVerifies(env) && TokensAreWords(env)
    requires t4 / 1000 < t2 / 1000 + SessionLifetimeSec
    requires s.notes == [note] && note.owner == 0
    ensures
      var auth := Some("Bearer " + env.sign(SessionClaims(VerifiedAlice(hash), t2)));
      Handle(env, s, NotesRequest(auth, ListOp), draw, t4) == Step(Response(200, NoteList([note])), s)
  {
    TokenStep(env, hash, t2, t4);
    assert OwnedBy([note], 0) == [note];
  }

  /** From the empty store: Alice signs up, verifies within ten minutes, logs
      in, creates a note within the session's day, and then lists exactly that
      one note, owned by her id. */
  lemma AliceWalkthrough(env: Env, draw: SignupDraw, t0: nat, t1: nat, t2: nat, t3: nat, t4: nat)
    requires IsOtpCode(draw.otpCode) && |draw.hash("secret1")| >= MinPasswordLength && draw.mailDelivered
    requires HashMatches(env, draw)
    requires SignVerifies(env) && TokensAreWords(env)
    requires t1 <= t0 + OtpLifetimeMs
    requires t3 / 1000 < t2 / 1000 + SessionLifetimeSec && t4 / 1000 < t2 / 1000 + SessionLifetimeSec
    ensures
      var o1 := Handle(env, EmptyStore, SignupRequest(Some("Alice"), Some(AliceEmail), Some("secret1")), draw, t0);
      var o2 := Handle(env, o1.store, VerifyOtpRequest(Some(AliceEmail), Some(Decimal(draw.otpCode))), draw, t1);
      var o3 := Handle(env, o2.store, LoginRequest(Some(AliceEmail), Some("secret1")), draw, t2);
      var auth := Some("Bearer " + o3.response.body.token);
      var o4 := Handle(env, o3.store, NotesRequest(auth, CreateOp(Some("Shopping"), Some("Milk, eggs"))), draw, t3);
      var o5 := Handle(env, o4.store, NotesRequest(auth, ListOp), draw, t4);
      && o1.response.status == 200
      && o2.response.status == 200
      && o3.response.status == 200 && o3.response.body.Session?
      && o4.response.status == 201 && o4.response.body.NoteBody?
      && o4.response.body.note.owner == o3.response.body.userId
      && o4.response.body.note.title == "Shopping"
      && o4.response.body.note.description == "Milk, eggs"
      && o5.response == Response(200, NoteList([o4.response.body.note]))
  {
    SignupStep(env, draw, t0);
    VerifyStep(env, draw, draw.hash("secret1"), draw.otpCode, t0, t1);
    assert env.compare("secret1", draw.hash("secret1"));
    LoginStep(env, draw, t2);
    var s2 := Store(map[AliceEmail := VerifiedAlice(draw.hash("secret1"))], [], 1);
    CreateStep(env, draw, draw.hash("secret1"), s2, t2, t3);
    var note := Note(1, "Shopping", "Milk, eggs", 0, t3, t3);
    ListStep(env, draw, draw.hash("secret1"), s2.(notes := [note], nextId := 2), note, t2, t4);
  }
}

=== FILE: server.dfy ===
/** The request handlers of backend/server.js as pure transitions of the store:
    each takes the store, the request data and the clock (`now`, milliseconds
    since the epoch) and returns the HTTP response together with the new store.
    bcrypt, jsonwebtoken, Math.random and the mailer are abstracted: the hash
    comparison and the JWT signer/verifier are the fields of `Env`, while the
    fresh hash, the drawn code and whether the mail went out arrive in a
    `SignupDraw`. */
module Server {
  import opened JsSemantics
  import opened UserModel
  import opened NoteModel
  import opened AuthGateway
  import opened DataStore

  /** `10 * 60 * 1000`: an OTP lives ten minutes. */
  const OtpLifetimeMs: nat := 10 * 60 * 1000
  /** `expiresIn: '1d'`, in the seconds the JWT claims use. */
  const SessionLifetimeSec: nat := 24 * 60 * 60

  datatype Body =
    | Message(text: string)
    | Error(text: string)
    | NoteBody(note: Note)
    | NoteList(notes: seq<Note>)
    | Session(token: string, userId: nat, name: string, email: string)

  datatype Response = Response(status: nat, body: Body)

  datatype Step = Step(response: Response, store: Store)

  /** The process-wide collaborators: `bcrypt.compare(plain, hash)`,
      `jwt.sign(claims, secret)` and `jwt.verify(token, secret)` at a clock
      time in seconds. The secret is folded into `sign` and `verify`. */
  datatype Env = Env(
    compare: (string, string) -> bool,
    sign: Claims -> string,
    verify: (string, nat) -> Option<Claims>)

  /** What a signup draws from the outside world: `bcrypt.hash(·, 10)` with
      the salt this call happens to draw, the random code, and whether
      `sendOtpEmail` completed. */
  datatype SignupDraw = SignupDraw(hash: string -> string, otpCode: nat, mailDelivered: bool)

  /** bcrypt's promise: `compare(p, hash(p))` holds for every password. */
  ghost predicate HashMatches(env: Env, draw: SignupDraw) {
    forall p: string :: env.compare(p, draw.hash(p))
  }

  /** A bcrypt hash is 60 characters, so it always meets the schema's minimum. */
  ghost predicate HashLongEnough(draw: SignupDraw) {
    forall p: string :: |draw.hash(p)| >= MinPasswordLength
  }

  /** `Math.floor(100000 + Math.random() * 900000)` lies in 100000..999999. */
  predicate IsOtpCode(n: nat) {
    100000 <= n <= 999999
  }

  /** A `:id` route parameter: either an id Mongoose can cast to an ObjectId,
      or a string it cannot (the cast error is caught as a 500). */
  datatype PathId = IdParam(id: nat) | Uncastable

  /** `user.otpExpires < Date.now()`; with no expiry stored the comparison
      with `undefined` is false. */
  predicate OtpExpired(u: User, now: nat) {
    u.otpExpires.Some? && u.otpExpires.value < now
  }

  function Fail(status: nat, text: string): Response {
    Response(status, Error(text))
  }

  // ---------------------------------------------------------------------------
  // Accounts

  /** POST /signup. Missing fields and an email held by a verified account are
      rejected with 400 and no change; otherwise the single pending record for
      the email is created or overwritten. A failed mail is reported as 500
      after the record has been written. */
  function Signup(st: Store, name: Option<string>, email: Option<string>, password: Option<string>,
                  draw: SignupDraw, now: nat): (out: Step)
    requires IsOtpCode(draw.otpCode)
    ensures out.response.status in {200, 400, 500}
    ensures out.response.status == 400 ==> out.store == st
    ensures out.response.status != 400 ==>
              && Truthy(email)
              && Lower(email.value) in out.store.users
              && !out.store.users[Lower(email.value)].isVerified
    ensures out.store.notes == st.notes
    ensures out.store.nextId >= st.nextId
  {
    if !Truthy(name) || !Truthy(email) || !Truthy(password) then
      Step(Fail(400, "All fields are required"), st)
    else
      var key := Lower(email.value);
      if key in st.users && st.users[key].isVerified then
        Step(Fail(400, "Email already in use by a verified account"), st)
      else
        var otp := Decimal(draw.otpCode);
        var expires := now + OtpLifetimeMs;
        var st' :=
          if key in st.users then
            st.(users := st.users[key := ApplySignup(st.users[key], name.value, draw.hash(password.value), otp, expires)])
          else
            st.(users := st.users[key := NewPendingUser(st.nextId, key, name.value, draw.hash(password.value), otp, expires)],
                nextId := st.nextId + 1);
        if draw.mailDelivered then
          Step(Response(200, Message("OTP sent to your email. Please verify.")), st')
        else
          Step(Fail(500, "Internal server error"), st')
  }

  /** POST /verify-otp. Succeeds only when the stored code equals the submitted
      one and has not expired; then the account is verified and the code
      cleared. Every failure leaves the store unchanged. */
  function VerifyOtp(st: Store, email: Option<string>, otp: Option<string>, now: nat): (out: Step)
    ensures out.response.status in {200, 400, 500}
    ensures out.response.status != 200 ==> out.store == st
    ensures out.response.status == 200 ==>
              && Truthy(email) && Lower(email.value) in st.users
              && st.users[Lower(email.value)].otp == otp
              && !OtpExpired(st.users[Lower(email.value)], now)
              && out.store == st.(users := st.users[Lower(email.value) := MarkVerified(st.users[Lower(email.value)])])
  {
    if !Truthy(email) || !Truthy(otp) then
      Step(Fail(400, "Email and OTP are required"), st)
    else
      var key := Lower(email.value);
      if key !in st.users then
        Step(Fail(400, "User not found."), st)
      else
        var u := st.users[key];
        if u.otp != Some(otp.value) || OtpExpired(u, now) then
          Step(Fail(400, "Invalid or expired OTP."), st)
        else
          var v := MarkVerified(u);
          // `user.save()` validates the whole document before writing it.
          if !SchemaValid(v) then
            Step(Fail(500, "Internal server error"), st)
          else
            Step(Response(200, Message("Account verified successfully. Please log in.")),
                 st.(users := st.users[key := v]))
  }

  /** The claims `jwt.sign({ id, email }, secret, { expiresIn: '1d' })` embeds
      at clock time `now` (milliseconds). */
  function SessionClaims(u: User, now: nat): (c: Claims)
    ensures c.id == u.id && c.email == u.email
    ensures c.exp - c.iat == SessionLifetimeSec
  {
    Claims(u.id, u.email, now / 1000, now / 1000 + SessionLifetimeSec)
  }

  /** POST /login. Never changes the store; an unknown email and a wrong
      password get the same 400; the verification flag is not consulted. */
  function Login(env: Env, st: Store, email: Option<string>, password: Option<string>, now: nat): (out: Step)
    ensures out.store == st
    ensures out.response.status in {200, 400}
    ensures out.response.status == 200 ==>
              && Truthy(email) && Truthy(password) && Lower(email.value) in st.users
              && env.compare(password.value, st.users[Lower(email.value)].password)
  {
    if !Truthy(email) || !Truthy(password) then
      Step(Fail(400, "Email and password required"), st)
    else
      var key := Lower(email.value);
      if key !in st.users then
        Step(Fail(400, "Invalid email or password"), st)
      else
        var u := st.users[key];
        if !env.compare(password.value, u.password) then
          Step(Fail(400, "Invalid email or password"), st)
        else
          var token := env.sign(SessionClaims(u, now));
          Step(Response(200, Session(token, u.id, u.name, u.email)), st)
  }

  // ---------------------------------------------------------------------------
  // Notes, scoped to the identity the gateway established

  /** POST /notes. The owner is the token identity; the body has no say in it.
      Missing fields give 400; a value the schema rejects after trimming gives
      400 with the validation message (the catch block answers 400). */
  function CreateNote(st: Store, who: Claims, title: Option<string>, description: Option<string>, now: nat): (out: Step)
    ensures out.response.status in {201, 400}
    ensures out.response.status == 400 ==> out.store == st
    ensures out.store.nextId >= st.nextId
    ensures out.response.status == 201 ==>
              && out.response.body.NoteBody?
              && out.response.body.note.owner == who.id
              && NoteValid(out.response.body.note)
              && out.store.notes == st.notes + [out.response.body.note]
              && out.store.users == st.users
  {
    if !Truthy(title) || !Truthy(description) then
      Step(Fail(400, "Title and description are required"), st)
    else
      match (CastText(title.value, MaxTitleLength), CastText(description.value, MaxDescriptionLength))
      case (Some(t), Some(d)) =>
        var note := Note(st.nextId, t, d, who.id, now, now);
        Step(Response(201, NoteBody(note)), st.(notes := st.notes + [note], nextId := st.nextId + 1))
      case _ =>
        Step(Fail(400, "Notes validation failed"), st)
  }

  /** GET /notes: the requester's notes, newest first. */
  function ListNotes(st: Store, who: Claims): (out: Step)
    ensures out.store == st
    ensures out.response.status == 200 && out.response.body.NoteList?
  {
    Step(Response(200, NoteList(SortNewestFirst(OwnedBy(st.notes, who.id)))), st)
  }

  /** The `$set` document of an update: each truthy field, after the schema's
      trim setter and validators. None when a supplied value fails validation. */
  function UpdatedText(field: Option<string>, maxLength: nat): (r: Option<Option<string>>)
    ensures r == Some(None) <==> !Truthy(field)
    ensures r.None? <==> Truthy(field) && !ValidText(Trim(field.value), maxLength)
    ensures r.Some? && r.value.Some? ==> Truthy(field) && r.value.value == Trim(field.value) && ValidText(r.value.value, maxLength)
  {
    if !Truthy(field) then Some(None)
    else
      match CastText(field.value, maxLength)
      case Some(t) => Some(Some(t))
      case None => None
  }

  /** PUT /notes/:id. Only the truthy fields are set, and only on the note
      matching `{ _id, user }`; a note of another user is reported exactly like
      a missing one. Validation and cast errors are caught as 500. */
  function UpdateNote(st: Store, who: Claims, id: PathId, title: Option<string>, description: Option<string>, now: nat): (out: Step)
    ensures out.response.status in {200, 400, 404, 500}
    ensures out.response.status != 200 ==> out.store == st
    ensures out.store.users == st.users && |out.store.notes| == |st.notes|
    ensures out.store.nextId == st.nextId
  {
    if !Truthy(title) && !Truthy(description) then
      Step(Fail(400, "Please provide a title or description to update"), st)
    else
      match (id, UpdatedText(title, MaxTitleLength), UpdatedText(description, MaxDescriptionLength))
      case (IdParam(noteId), Some(newTitle), Some(newDescription)) =>
        (match FindOwned(st.notes, noteId, who.id)
         case None =>
           Step(Fail(404, "Note not found or you do not have permission to edit it"), st)
         case Some(i) =>
           var n := st.notes[i];
           var n' := n.(title := newTitle.GetOr(n.title),
                        description := newDescription.GetOr(n.description),
                        updatedAt := now);
           Step(Response(200, NoteBody(n')), st.(notes := st.notes[i := n'])))
      case _ =>
        Step(Fail(500, "Failed to update note"), st)
  }

  /** DELETE /notes/:id. Removes the one note matching `{ _id, user }`; a note
      of another user is reported exactly like a missing one. */
  function DeleteNote(st: Store, who: Claims, id: PathId): (out: Step)
    ensures out.response.status in {200, 404, 500}
    ensures out.response.status != 200 ==> out.store == st
    ensures out.response.status == 200 ==> |out.store.notes| == |st.notes| - 1
    ensures out.store.users == st.users && out.store.nextId == st.nextId
  {
    match id
    case Uncastable =>
      Step(Fail(500, "Failed to delete note"), st)
    case IdParam(noteId) =>
      match FindOwned(st.notes, noteId, who.id)
      case None =>
        Step(Fail(404, "Note not found or you do not have permission to delete it"), st)
      case Some(i) =>
        Step(Response(200, Message("Note deleted successfully")), st.(notes := RemoveAt(st.notes, i)))
  }

  // ---------------------------------------------------------------------------
  // The routes

  /** A notes route and its request data, once past the gateway. */
  datatype NotesOp =
    | ListOp
    | CreateOp(title: Option<string>, description: Option<string>)
    | UpdateOp(id: PathId, title: Option<string>, description: Option<string>)
    | DeleteOp(id: PathId)

  datatype Request =
    | SignupRequest(name: Option<string>, email: Option<string>, password: Option<string>)
    | VerifyOtpRequest(email: Option<string>, otp: Option<string>)
    | LoginRequest(email: Option<string>, password: Option<string>)
    | NotesRequest(authorization: Option<string>, op: NotesOp)

  /** The gateway in front of a notes route. */
  function Guard(env: Env, authorization: Option<string>, now: nat): Outcome {
    Authenticate(authorization, env.verify, now / 1000)
  }

  /** A notes route run as the identity `who`. */
  function Notes(st: Store, who: Claims, op: NotesOp, now: nat): Step {
    match op
    case ListOp => ListNotes(st, who)
    case CreateOp(title, description) => CreateNote(st, who, title, description, now)
    case UpdateOp(id, title, description) => UpdateNote(st, who, id, title, description, now)
    case DeleteOp(id) => DeleteNote(st, who, id)
  }

  /** One request against the store. A notes route runs only with the identity
      the gateway produced; 401 and 403 change nothing, and no notes route
      touches the users. */
  function Handle(env: Env, st: Store, req: Request, draw: SignupDraw, now: nat): (out: Step)
    requires IsOtpCode(draw.otpCode)
    ensures req.NotesRequest? && out.response.status in {401, 403} ==> out.store == st
    ensures req.NotesRequest? ==> out.store.users == st.users
    ensures out.store.nextId >= st.nextId
  {
    match req
    case SignupRequest(name, email, password) => Signup(st, name, email, password, draw, now)
    case VerifyOtpRequest(email, otp) => VerifyOtp(st, email, otp, now)
    case LoginRequest(email, password) => Login(env, st, email, password, now)
    case NotesRequest(authorization, op) =>
      match Guard(env, authorization, now)
      case MissingToken => Step(Fail(401, "Access token missing"), st)
      case InvalidToken => Step(Fail(403, "Invalid or expired token"), st)
      case Proceed(who) => Notes(st, who, op, now)
  }
}

=== FILE: store_invariant.dfy ===
/** The store invariant holds in every store reachable from the empty one by
    any sequence of requests: emails stay unique and lower-cased, ids stay
    distinct, pending accounts hold a code and verified ones none, and every
    note satisfies its schema. */
module StoreInvariant {
  import opened JsSemantics
  import opened UserModel
  import opened NoteModel
  import opened AuthGateway
  import opened DataStore
  import opened Server

  lemma EmptyStoreValid()
    ensures StoreValid(EmptyStore)
  {
  }

  /** The upsert's insert branch: a well-formed user under its own email,
      carrying the next ObjectId, keeps the invariant. */
  lemma InsertUserPreserves(st: Store, key: string, u: User)
    requires StoreValid(st)
    requires key !in st.users && u.email == key && u.id == st.nextId && UserWellFormed(u)
    ensures StoreValid(st.(users := st.users[key := u], nextId := st.nextId + 1))
  {
    var st' := st.(users := st.users[key := u], nextId := st.nextId + 1);
    assert forall e :: e in st'.users && e != key ==> st'.users[e] == st.users[e];
  }

  /** The upsert's update branch: a well-formed user replacing the record under
      its own email and keeping that record's id keeps the invariant. */
  lemma OverwriteUserPreserves(st: Store, key: string, u: User)
    requires StoreValid(st)
    requires key in st.users && u.email == key && u.id == st.users[key].id && UserWellFormed(u)
    ensures StoreValid(st.(users := st.users[key := u]))
  {
    var st' := st.(users := st.users[key := u]);
    assert forall e :: e in st'.users && e != key ==> st'.users[e] == st.users[e];
  }

  /** Signup keeps the invariant, provided the hash of the submitted password
      is at least six characters long (a bcrypt hash is 60). */
  lemma SignupPreserves(st: Store, name: Option<string>, email: Option<string>, password: Option<string>,
                        draw: SignupDraw, now: nat)
    requires StoreValid(st)
    requires IsOtpCode(draw.otpCode)
    requires Truthy(password) ==> |draw.hash(password.value)| >= MinPasswordLength
    ensures StoreValid(Signup(st, name, email, password, draw, now).store)
  {
    var out := Signup(st, name, email, password, draw, now);
    if out.response.status != 400 {
      var key := Lower(email.value);
      var otp := Decimal(draw.otpCode);
      var expires := now + OtpLifetimeMs;
      if key in st.users {
        var u := ApplySignup(st.users[key], name.value, draw.hash(password.value), otp, expires);
        assert out.store == st.(users := st.users[key := u]);
        OverwriteUserPreserves(st, key, u);
      } else {
        var u := NewPendingUser(st.nextId, key, name.value, draw.hash(password.value), otp, expires);
        assert out.store == st.(users := st.users[key := u], nextId := st.nextId + 1);
        InsertUserPreserves(st, key, u);
      }
    }
  }

  lemma VerifyOtpPreserves(st: Store, email: Option<string>, otp: Option<string>, now: nat)
    requires StoreValid(st)
    ensures StoreValid(VerifyOtp(st, email, otp, now).store)
  {
    var out := VerifyOtp(st, email, otp, now);
    if out.response.status == 200 {
      var key := Lower(email.value);
      OverwriteUserPreserves(st, key, MarkVerified(st.users[key]));
    }
  }

  lemma CreatePreserves(st: Store, who: Claims, title: Option<string>, description: Option<string>, now: nat)
    requires StoreValid(st)
    ensures StoreValid(CreateNote(st, who, title, description, now).store)
  {
    var out := CreateNote(st, who, title, description, now);
    if out.response.status == 201 {
      var n := out.response.body.note;
      assert n.id == st.nextId;
      assert forall i :: 0 <= i < |st.notes| ==> out.store.notes[i] == st.notes[i];
      assert out.store.notes[|st.notes|] == n;
    }
  }

  /** Replacing a note by a valid one with the same id keeps the invariant. */
  lemma ReplaceNotePreserves(st: Store, i: nat, n: Note)
    requires StoreValid(st)
    requires i < |st.notes| && n.id == st.notes[i].id && NoteValid(n)
    ensures StoreValid(st.(notes := st.notes[i := n]))
  {
    var r := st.notes[i := n];
    assert forall j :: 0 <= j < |r| ==> r[j].id == st.notes[j].id;
  }

  lemma UpdatePreserves(st: Store, who: Claims, id: PathId, title: Option<string>, description: Option<string>, now: nat)
    requires StoreValid(st)
    ensures StoreValid(UpdateNote(st, who, id, title, description, now).store)
  {
    var out := UpdateNote(st, who, id, title, description, now);
    if out.response.status == 200 {
      var i := FindOwned(st.notes, id.id, who.id).value;
      var n := out.response.body.note;
      assert out.store == st.(notes := st.notes[i := n]);
      ReplaceNotePreserves(st, i, n);
    }
  }

  lemma DeletePreserves(st: Store, who: Claims, id: PathId)
    requires StoreValid(st)
    ensures StoreValid(DeleteNote(st, who, id).store)
  {
    var out := DeleteNote(st, who, id);
    if out.response.status == 200 {
      var i := FindOwned(st.notes, id.id, who.id).value;
      var r := out.store.notes;
      assert forall k :: 0 <= k < |r| ==> r[k] == st.notes[if k < i then k else k + 1];
      forall a, b | 0 <= a < b < |r|
        ensures r[a].id != r[b].id
      {
        var a' := if a < i then a else a + 1;
        var b' := if b < i then b else b + 1;
        assert a' < b';
        assert r[a] == st.notes[a'] && r[b] == st.notes[b'];
      }
    }
  }

  /** Every notes route keeps the invariant. */
  lemma NotesPreserves(st: Store, who: Claims, op: NotesOp, now: nat)
    requires StoreValid(st)
    ensures StoreValid(Notes(st, who, op, now).store)
  {
    match op
    case ListOp =>
    case CreateOp(title, description) => CreatePreserves(st, who, title, description, now);
    case UpdateOp(id, title, description) => UpdatePreserves(st, who, id, title, description, now);
    case DeleteOp(id) => DeletePreserves(st, who, id);
  }

  /** Every request keeps the invariant. */
  lemma HandlePreserves(env: Env, st: Store, req: Request, draw: SignupDraw, now: nat)
    requires StoreValid(st)
    requires IsOtpCode(draw.otpCode) && HashLongEnough(draw)
    ensures StoreValid(Handle(env, st, req, draw, now).store)
  {
    match req
    case SignupRequest(name, email, password) => SignupPreserves(st, name, email, password, draw, now);
    case VerifyOtpRequest(email, otp) => VerifyOtpPreserves(st, email, otp, now);
    case LoginRequest(_, _) =>
    case NotesRequest(authorization, op) =>
      match Guard(env, authorization, now)
      case MissingToken =>
      case InvalidToken =>
      case Proceed(who) => NotesPreserves(st, who, op, now);
  }

  // ---------------------------------------------------------------------------
  // Traces

  /** One request together with what the outside world supplied for it. */
  datatype Event = Event(req: Request, draw: SignupDraw, now: nat)

  /** The outside world behaves as bcrypt and Math.random do: a hash that
      `compare` accepts for its own password and that is at least six
      characters long, and a code in 100000..999999. */
  ghost predicate Admissible(env: Env, e: Event) {
    IsOtpCode(e.draw.otpCode) && HashLongEnough(e.draw) && HashMatches(env, e.draw)
  }

  /** The store after handling the requests of `trace` in order. The ObjectId
      counter never goes back, so no id is handed out twice along a trace. */
  function Run(env: Env, st: Store, trace: seq<Event>): (r: Store)
    requires forall i :: 0 <= i < |trace| ==> Admissible(env, trace[i])
    ensures r.nextId >= st.nextId
    decreases |trace|
  {
    if |trace| == 0 then st
    else
      var e := trace[0];
      assert Admissible(env, e);
      Run(env, Handle(env, st, e.req, e.draw, e.now).store, trace[1..])
  }

  lemma {:induction false} RunPreserves(env: Env, st: Store, trace: seq<Event>)
    requires StoreValid(st)
    requires forall i :: 0 <= i < |trace| ==> Admissible(env, trace[i])
    ensures StoreValid(Run(env, st, trace))
    decreases |trace|
  {
    if |trace| > 0 {
      var e := trace[0];
      assert Admissible(env, e);
      HandlePreserves(env, st, e.req, e.draw, e.now);
      RunPreserves(env, Handle(env, st, e.req, e.draw, e.now).store, trace[1..]);
    }
  }

  /** Every reachable store: at most one record per email, each email stored
      lower-cased, stored passwords at least six characters long, verified
      accounts without a code, pending accounts with one, and every note
      trimmed, non-empty and within its length limits. */
  lemma ReachableStoresValid(env: Env, trace: seq<Event>)
    requires forall i :: 0 <= i < |trace| ==> Admissible(env, trace[i])
    ensures var st := Run(env, EmptyStore, trace);
            && StoreValid(st)
            && (forall e1, e2 :: e1 in st.users && e2 in st.users && st.users[e1].email == st.users[e2].email ==> e1 == e2)
            && (forall e :: e in st.users ==>
                  && IsLowerCase(st.users[e].email)
                  && |st.users[e].password| >= MinPasswordLength
                  && (st.users[e].isVerified <==> st.users[e].otp.None?))
            && (forall i :: 0 <= i < |st.notes| ==>
                  && ValidText(st.notes[i].title, MaxTitleLength)
                  && ValidText(st.notes[i].description, MaxDescriptionLength))
  {
    EmptyStoreValid();
    RunPreserves(env, EmptyStore, trace);
  }
}

=== FILE: user_model.dfy ===
/** The user record as the effective `userSchema` defines it. The schema object
    literal names `name`, `email` and `password` twice; the later entries win, so
    `name` is only required, `email` is required, unique and lower-cased (not
    trimmed), and `password` is required with a minimum length of 6 that applies
    to the stored bcrypt hash, never to the plaintext. */
module UserModel {
  import opened JsSemantics

  datatype User = User(
    id: nat,                   // the document's ObjectId
    name: string,
    email: string,
    password: string,          // the bcrypt hash
    otp: Option<string>,
    otpExpires: Option<nat>,   // milliseconds since the epoch
    isVerified: bool)

  const MinPasswordLength: nat := 6

  /** What document validation on `save` checks: the three required strings are
      non-empty and the stored password is at least six characters long. */
  predicate SchemaValid(u: User) {
    && u.name != ""
    && u.email != ""
    && |u.password| >= MinPasswordLength
  }

  /** The OTP lifecycle: a pending account holds a code and its expiry, a
      verified one holds neither. */
  predicate OtpConsistent(u: User) {
    if u.isVerified then u.otp.None? && u.otpExpires.None?
    else u.otp.Some? && u.otpExpires.Some?
  }

  /** Every stored user: schema-valid, email stored through the lowercase
      setter, OTP fields in step with the verification flag. */
  predicate UserWellFormed(u: User) {
    && SchemaValid(u)
    && IsLowerCase(u.email)
    && OtpConsistent(u)
  }

  /** The upsert's update document `{ name, password, otp, otpExpires,
      isVerified: false }` applied to an existing pending record. */
  function ApplySignup(u: User, name: string, hash: string, otp: string, expires: nat): (v: User)
    ensures v.id == u.id && v.email == u.email
    ensures v.name == name && v.password == hash && v.otp == Some(otp) && v.otpExpires == Some(expires)
    ensures !v.isVerified && OtpConsistent(v)
    ensures UserWellFormed(v) <==> name != "" && u.email != "" && IsLowerCase(u.email) && |hash| >= MinPasswordLength
  {
    u.(name := name, password := hash, otp := Some(otp), otpExpires := Some(expires), isVerified := false)
  }

  /** The document the upsert inserts when no pending record exists: the
      filter's email plus the update document; `isVerified` takes its default
      `false`. */
  function NewPendingUser(id: nat, email: string, name: string, hash: string, otp: string, expires: nat): (v: User)
    ensures v.id == id && v.email == email
    ensures v.name == name && v.password == hash && v.otp == Some(otp) && v.otpExpires == Some(expires)
    ensures !v.isVerified && OtpConsistent(v)
    ensures UserWellFormed(v) <==> name != "" && email != "" && IsLowerCase(email) && |hash| >= MinPasswordLength
  {
    User(id, name, email, hash, Some(otp), Some(expires), false)
  }

  /** Successful verification: the account is verified and both OTP fields are
      cleared, so the code cannot be used again; identity, name, email and
      password are kept. */
  function MarkVerified(u: User): (v: User)
    ensures v.isVerified && v.otp.None? && v.otpExpires.None?
    ensures OtpConsistent(v)
    ensures v.id == u.id && v.email == u.email && v.name == u.name && v.password == u.password
    ensures SchemaValid(u) <==> SchemaValid(v)
  {
    u.(isVerified := true, otp := None, otpExpires := None)
  }
}
